=== FILE: README.md ===
# Avoidance game core: difficulty, spawner and life state, in Dafny

This project models the game logic of the avoidance game's `GameScene`, with
the game engine taken away. A player dodges obstacles that fall or sweep
across a 480 × 800 field and tries to survive as long as possible. The parts
modelled are:

- **Difficulty curve** (`difficulty.dfy`, module `Difficulty`). The delay
  between waves is `max(260, 900 − 11t)` ms. The fall speed is `180 + 4.5t`
  px/s. The wave-size bound is `1 + min(2, ⌊t/12⌋)`. Here `t` is elapsed
  seconds and every quantity is a `real`.
- **Kind selector** (`kinds.dfy`, module `Kinds`). There are four clamped
  linear probability bands. One draw `u` walks the cumulative thresholds in
  the order ghost, banana, sine, diag, and `Drop` is the fallback.
- **Spawn geometry** (`obstacles.dfy`, module `Obstacles`). Each kind has its
  own spawn position and starting velocity. `spawnObstacle` is modelled as
  written, including its fall-through: a `banana` or `ghost` request first
  creates a swaying (`Sine`) obstacle and then its own obstacle.
- **Waves** (`spawner.dfy`, module `Spawner`). A wave draws its size, asks for
  that many obstacle kinds, and rarely adds a life item.
- **Per-frame obstacle pass** (`behavior.dfy`, module `Behavior`). Swaying
  obstacles steer sideways and ghosts home in on the player. Obstacles more
  than 80 px past the bottom or a side edge are removed.
- **Session state machine** (`session.dfy`, module `Session`). This covers
  `startGame`, `gameOver`, the self-rescheduling spawn timer, the frame
  update, `onHit` with its 1000 ms grace window, and `onGetLife`.

Randomness is an explicit stream of draws (`Random.Source`, in `random.dfy`).
Every `Math.random()`, `Phaser.Math.Between` and `Phaser.Math.FloatBetween`
call takes the next draw, in the same order as the source. `Uniform(src)`
states that every draw lies in [0, 1). The library helpers are modelled by
their usual definitions:

- `Between(lo, hi)` = `⌊u·(hi − lo + 1) + lo⌋`
- `FloatBetween(lo, hi)` = `u·(hi − lo) + lo`
- `Clamp(v, lo, hi)` = `max(lo, min(hi, v))`
- `Linear(a, b, f)` = `(b − a)·f + a`
- `Math.sign` returns −1, 0 or 1.

The Phaser library itself is not part of this model.

The clock `now`, the player's x position and the stored best time are
parameters. `sin(2π·x)` is an uninterpreted parameter `wave`. The field size
is a `Field` parameter; `Obstacles.Screen` records the configured 480 × 800
from `src/main.ts`. Events carry clock readings; the properties about the
clock hold for event sequences whose readings never decrease
(`Session.Forward`), as the engine's clock does.

Two details of the code that the model keeps:

- The spawn timer captures the elapsed time `t` when it is **armed**. The
  wave it spawns when it fires uses that `t`, so it lags one interval behind
  the clock (`Session.WaveUsesArmedTime`).
- Because of the fall-through, ghost requests bring swaying obstacles from
  the first second of a run. The kind bands alone would keep `Sine` out until
  15 s (`Spawner.GhostWaveSways` with `Kinds.EarlyKinds`, and
  `Spawner.EarlyWaveHasNoBanana`).

Three behaviours of the code that are easy to miss:

- Life items are never removed for leaving the screen. The frame pass prunes
  obstacles only.
- The game-over test is `lives <= 0`.
- `onGetLife` does not check whether a run is on, so a pickup after game over
  still adds a life.

## Model

| member | source | states |
|---|---|---|
| Random.Next | src/scenes/GameScene.ts:195 | a `Math.random()` call consumes exactly one draw and yields a value in [0, 1) |
| Random.Between | src/scenes/GameScene.ts:175 | an integer draw consumes one draw and, for bounds lo ≤ hi, lands in [⌊lo⌋, hi + 1), and is at most hi when hi is whole |
| Random.FloatBetween | src/scenes/GameScene.ts:236 | a real draw consumes one draw and lands in [lo, hi) |
| Difficulty.SpawnInterval | src/scenes/GameScene.ts:32-34 | the wave delay is never below 260 ms, is exactly 900 ms at t = 0, and never exceeds 900 ms for t ≥ 0 |
| Difficulty.SpawnIntervalNonIncreasing | src/scenes/GameScene.ts:163 | the wave delay never grows as elapsed time grows |
| Difficulty.SpawnIntervalFloor | src/scenes/GameScene.ts:163 | the delay sits on its 260 ms floor exactly from t = 640/11 s on |
| Difficulty.FallSpeed | src/scenes/GameScene.ts:30-31 | fall speed is 180 px/s at t = 0, at least 180 for t ≥ 0, and positive exactly when t > −40 |
| Difficulty.FallSpeedIncreasing | src/scenes/GameScene.ts:172 | fall speed is strictly increasing in t |
| Difficulty.WaveMax | src/scenes/GameScene.ts:175 | the wave-size bound is 1 below 12 s, 2 below 24 s, and 3 from then on; never above 3 |
| Difficulty.WaveMaxNonDecreasing | src/scenes/GameScene.ts:175 | the wave-size bound never shrinks as time goes on |
| Kinds.Clamp | src/scenes/GameScene.ts:190-193 | a clamped value lies in [lo, hi] and is the value itself when that is already inside |
| Kinds.PGhost | src/scenes/GameScene.ts:192 | the ghost band lies in [0.1, 0.3], is 0.1 at t ≤ 0 and 0.3 from 40 s |
| Kinds.PBanana | src/scenes/GameScene.ts:191 | the banana band lies in [0, 0.3], is 0 up to 5 s and 0.3 from 20 s |
| Kinds.PSine | src/scenes/GameScene.ts:190 | the sine band lies in [0, 0.25], is 0 up to 15 s and 0.25 from 40 s |
| Kinds.PDiag | src/scenes/GameScene.ts:193 | the diagonal band lies in [0.15, 0.3], is 0.15 at t ≤ 0 and 0.3 from 30 s |
| Kinds.PickKind | src/scenes/GameScene.ts:187-202 | ghost iff the draw is below the ghost band; each later kind iff the draw lies between its predecessor's cumulative threshold and its own; drop iff the draw reaches the sum of all four bands |
| Kinds.PickKindIntervals | src/scenes/GameScene.ts:196-201 | for any non-negative draw, the selector agrees with the interval table: each kind owns [Below, Upto), and drop owns everything from the total upward |
| Kinds.SharesAreDistribution | src/scenes/GameScene.ts:196-201 | the effective shares of the five kinds on [0, 1) are never negative, drop included, and sum to 1 |
| Kinds.EarlyKinds | src/scenes/GameScene.ts:190-191 | up to 5 s the selector never returns banana or sine; up to 15 s never sine |
| Kinds.BandsNonDecreasing | src/scenes/GameScene.ts:188-193 | every band is non-decreasing in time, so the combined share of the non-drop kinds never falls and a drop never becomes more likely |
| Kinds.DiagShareShrinksLate | src/scenes/GameScene.ts:193-200 | a single kind can become rarer: the diagonal's band is 0.3 at both 30 s and 40 s, yet its share of draws falls from 0.3 to 0.15 |
| Kinds.DropStarvesLate | src/scenes/GameScene.ts:190-201 | from 40 s the bands sum to 1.15, so no draw in [0, 1) yields drop and drop's share is 0 |
| Obstacles.SpawnDrop | src/scenes/GameScene.ts:207-214 | one draw; a drop appears above the top edge within [24, w − 24] and falls straight at the wave speed |
| Obstacles.SpawnDiag | src/scenes/GameScene.ts:216-227 | four draws; a diagonal enters at x = −30 exactly when the first draw is below 0.5 and at w + 30 otherwise, in rows [40, h/2] (the upper bound exact when h/2 is whole), with a horizontal speed of 0.5 to 0.9 of the wave speed toward the far side, falling at 0.6 to 0.9 of it |
| Obstacles.SpawnSine | src/scenes/GameScene.ts:229-237 | four draws; a swaying obstacle appears above the top edge within [24, w − 24] with no sideways speed, falls at 0.8 to 1.0 of the wave speed, and carries spawn time now, amplitude in [120, 220] and frequency in [0.6, 1.3) |
| Obstacles.SpawnBanana | src/scenes/GameScene.ts:239-251 | four draws; a banana enters at x = −30 exactly when the first draw is below 0.5 and at w + 30 otherwise, in the 20 to 60% height band, with a horizontal speed of 0.4 to 0.7 of the wave speed toward the far side, falling at 0.5 to 0.7 of it |
| Obstacles.SpawnGhost | src/scenes/GameScene.ts:253-261 | one draw; a ghost appears above the top edge in the central 20 to 80% band, without sideways speed, falling at half the wave speed |
| Obstacles.SpawnObstacle | src/scenes/GameScene.ts:204-262 | existing obstacles are kept as a prefix; drop, diag and sine add exactly one obstacle of that kind; banana and ghost add exactly two, a sine then the requested kind; every new obstacle is consistently tagged, falls at between half and all of the given speed and, for a positive speed, heads into the field |
| Obstacles.SpawnLife | src/scenes/GameScene.ts:264-272 | one draw; exactly one item is appended above the top edge within [20, w − 20], falling at the given speed; earlier items are kept |
| Obstacles.ScreenSpawnRanges | src/scenes/GameScene.ts:207-272 | on the 480 × 800 field a drop or swaying obstacle appears at x in [24, 456], a diagonal at y in [40, 400], a life item at x in [20, 460] |
| Spawner.WaveSize | src/scenes/GameScene.ts:175 | for t ≥ 0 the wave size n satisfies 1 ≤ n ≤ WaveMax(t) ≤ 3; a draw in the top 1/WaveMax(t) of [0, 1) gives the full WaveMax(t), one in the bottom 1/WaveMax(t) gives 1 |
| Spawner.SpawnMany | src/scenes/GameScene.ts:176-179 | n requests add between n and 2n obstacles after the existing ones, all consistently tagged and, for a positive speed, heading into the field at between half and all of that speed; when no draw selects a banana, none is added |
| Spawner.EarlyWaveHasNoBanana | src/scenes/GameScene.ts:176-179 | a wave armed at t ≤ 5 s adds no banana, though it may add sine obstacles through ghost requests |
| Spawner.GhostWaveSways | src/scenes/GameScene.ts:176-179 | a wave whose first request is a ghost contains a swaying obstacle |
| Spawner.Requests | src/scenes/GameScene.ts:170-179 | the obstacle part of a wave: one size draw, then requests adding between 1 and 2·WaveMax(t) ≤ 6 obstacles for t ≥ 0, each falling at between 0.5 and 1 times FallSpeed(t), consistently tagged and heading into the field, consuming draws only forward |
| Spawner.SpawnWave | src/scenes/GameScene.ts:170-185 | a wave's obstacles are its requests; the first draw after the requests adds one life item at 0.8 times the wave speed if and only if it is below 0.005; existing obstacles and items are kept as prefixes |
| Behavior.Sign | src/scenes/GameScene.ts:114 | the sign is −1, 0 or 1, agrees in sign with its argument, and is 0 exactly for 0 |
| Behavior.Steer | src/scenes/GameScene.ts:104-116 | steering changes only vx; a ghost closes 5% of its gap to ±60 px/s toward the player and its new vx lies between the old one and that target; drop, diag and banana are untouched |
| Behavior.SwayWithinAmplitude | src/scenes/GameScene.ts:104-110 | with a wave bounded by 1, a swaying obstacle's sideways speed stays within its amplitude |
| Behavior.OnScreen | src/scenes/GameScene.ts:118-122 | each obstacle with y > h + 80, x < −80 or x > w + 80 is removed, and every copy of any other obstacle is kept |
| Behavior.Pass | src/scenes/GameScene.ts:99-123 | after one pass the obstacles are exactly the steered ones within the margins, every copy counted: an off-screen one has no copy left, any other keeps all its copies, and nothing new appears; tags stay consistent |
| Session.Init | src/scenes/GameScene.ts:18-26 | the scene starts idle, satisfying the invariant, with the stored best time |
| Session.ScheduleNextSpawn | src/scenes/GameScene.ts:161-168 | arming captures t = elapsedMs / 1000 and waits exactly SpawnInterval(t), i.e. max(260, 900 − 11t) ms, within [260, 900] for t ≥ 0; nothing else changes |
| Session.LaterArmingNeverWaitsLonger | src/scenes/GameScene.ts:161-163 | re-arming at a larger elapsed time never waits longer |
| Session.StartGame | src/scenes/GameScene.ts:130-145 | from any state, the run starts with 1 life, no grace window, elapsed 0, startAt = now, no obstacles or items, the best time kept, and the timer armed at t = 0 for 900 ms |
| Session.StartGameForgetsPastRun | src/scenes/GameScene.ts:130-144 | two states with the same best time and life cap restart to the same state |
| Session.GameOver | src/scenes/GameScene.ts:147-158 | the run stops, the timer is cancelled, and the best time becomes the larger of the old best and the elapsed time |
| Session.FireSpawnTimer | src/scenes/GameScene.ts:164-167 | a pending timer spawns the wave of the time t it captured when armed, keeping the old obstacles and items as prefixes and adding 1 to 2·WaveMax(t) ≤ 6 obstacles when t ≥ 0, then re-arms at the current elapsed time with delay SpawnInterval of it; with no pending timer nothing happens |
| Session.WaveUsesArmedTime | src/scenes/GameScene.ts:162-166 | the obstacles and items a firing spawns do not depend on the elapsed time at firing; only the re-armed timer sees it |
| Session.Frame | src/scenes/GameScene.ts:83-123 | outside a run a frame changes nothing; during a run it sets elapsed = now − startAt and keeps exactly the steered obstacles within the margins, every copy counted, with nothing else changed |
| Session.OnHit | src/scenes/GameScene.ts:275-294 | outside a run or inside the grace window the state is unchanged; otherwise exactly one life goes, the grace window ends at now + 1000, nothing else changes while lives remain, and at 0 lives the run ends through gameOver; obstacles are never removed |
| Session.HitsWithinGraceCountOnce | src/scenes/GameScene.ts:276-282 | two hits less than 1000 ms apart cost at most one life, and after a counted hit the second is a no-op |
| Session.LastLifeEndsRunOnce | src/scenes/GameScene.ts:291-293 | losing the last life stops the run, cancels the timer, commits the best time, and every later hit is ignored |
| Session.OnGetLife | src/scenes/GameScene.ts:296-300 | the touched item is removed; a life is added only below the cap of 3, so lives never exceed it; this holds in or out of a run, and nothing else changes |
| Session.StepKeepsInv | src/scenes/GameScene.ts:130-300 | every event preserves the invariant: lives stay in [0, 3], a run has at least one life, a timer is pending exactly during a run, and obstacles stay consistently tagged |
| Session.ReachableKeepsInv | src/scenes/GameScene.ts:18-26 | every state reachable from scene creation satisfies the invariant |
| Session.StepKeepsClockInv | src/scenes/GameScene.ts:89 | an event stamped no earlier than the clock keeps elapsed time and the captured spawn time non-negative and start + elapsed no later than the clock; during a run, every event but a restart leaves the elapsed time no smaller |
| Session.ForwardRunKeepsClockInv | src/scenes/GameScene.ts:137-141 | with a clock that never runs backwards, every reachable state has a non-negative elapsed time, a run's start plus elapsed time never passes the clock, and pending timers capture a non-negative t |
| Session.ReachableFiringSpawns | src/scenes/GameScene.ts:164-179 | with a forward clock, every firing of the spawn timer during a run adds between 1 and 6 obstacles |
| Session.HitAtHalfSecondEndsRun | src/scenes/GameScene.ts:130-158 | start at 0 ms with one life, a frame and a hit at 500 ms: the run is over at 500 ms and a lower best time becomes 500 |
| Session.PickupThenGraceWindow | src/scenes/GameScene.ts:275-300 | a pickup at 1000 ms gives 2 lives; a hit at 2000 ms leaves 1 life and grace until 3000 ms; a hit at 2500 ms is ignored and the run goes on |

## Left out

- Rendering is not modelled: the grid scroll, textures, tweens, particles, the HUD text and its `hud:update` event, and the title and game-over overlays (`addHUD`, `showTitle`, `showGameOver`, `addSparkle`, `drawControlArrows`). It is presentation only.
- Keyboard and touch input and the player's own velocity are not modelled. The player's x position is a parameter of `Session.Frame`.
- The engine's physics is not modelled. This covers position integration (obstacles keep the positions the model gives them), world bounds, hitbox shapes (`setCircle`, `setBodySize`), sprite angle, angular velocity and scale, and overlap detection. Hits and pickups arrive as `Session.Event`s.
- When the spawn timer fires is not modelled. The timer records its delay, and firing is an event (`Session.Fire`).
- `startGame` while a timer is pending is not modelled. The model has one timer slot, which `StartGame` overwrites. The code calls `startGame` only from the title and game-over overlays, when no timer is pending.
- The engine's group iteration is not modelled. Skipping of inactive children, and any skipping caused by destroying a child during iteration, are left out. The model treats the frame pass as steering every obstacle and then filtering.
- The model uses one clock value per frame. The code reads the frame's `time` for the elapsed time and `this.time.now` for the sway phase.
- `Math.sin` is the uninterpreted parameter `wave`. `Math.random` is the draw stream `Random.Source`. The stream's draws are not assumed to be independent or uniformly distributed, only to lie in [0, 1).
- Reading and writing the best time in `localStorage` is I/O and is not modelled. The stored value is the parameter of `Session.Init`.
- Arithmetic is exact `real` arithmetic, not IEEE doubles. The cumulative thresholds in `PickKind` have no rounding.
- `src/scenes/PreloadScene.ts` (texture drawing) and `vite.config.ts` (build settings) hold no game logic. Of `src/main.ts`, only the 480 × 800 field size is used.
- Obstacles.SpawnDrop, Obstacles.SpawnSine and Obstacles.SpawnLife: the upper bound on x is `w − 24` (resp. `w − 20`) only when the field width is a whole number. Otherwise it is the weaker `< w − 23` (resp. `< w − 19`), because the library rounds down.
- Obstacles.SpawnDiag: the upper bound on y is `h/2` only when `h/2` is a whole number. Otherwise it is the weaker `< h/2 + 1`, for the same reason.
- Obstacles.SpawnGhost and Obstacles.SpawnBanana: the position bounds are stated as the library's rounded-down range, `⌊0.2·w⌋ ≤ x < 0.8·w + 1` and `⌊0.2·h⌋ ≤ y < 0.6·h + 1`, not as exact integer bounds.

=== FILE: behavior.dfy ===
/** The per-frame obstacle pass: swaying obstacles steer sideways, ghosts
    home in on the player, and every obstacle that has left the field by more
    than the margin is removed. */
module Behavior {
  import opened Kinds
  import opened Obstacles

  /** The ghost's cruising horizontal speed toward the player, in px/s. */
  const HomingSpeed: real := 60.0
  /** The fraction of the gap to its target a ghost's speed closes per frame. */
  const HomingRate: real := 0.05
  /** How far past an edge an obstacle may go before it is removed, in px. */
  const Margin: real := 80.0

  /** `Math.sign`. */
  function Sign(x: real): (s: real)
    ensures s == -1.0 || s == 0.0 || s == 1.0
    ensures s * x >= 0.0 && (s == 0.0 <==> x == 0.0)
  {
    if x > 0.0 then 1.0 else if x < 0.0 then -1.0 else 0.0
  }

  /** The library's linear interpolation from `a` toward `b` by `f`. */
  function Linear(a: real, b: real, f: real): (r: real) {
    (b - a) * f + a
  }

  function Abs(x: real): (r: real) {
    if x < 0.0 then -x else x
  }

  /** Velocity adjustment of one obstacle in one frame. A swaying obstacle's
      horizontal speed is `amp * wave(phase)`, where `wave(x)` stands for
      sin(2 pi x) and the phase counts the periods elapsed since it spawned; a
      ghost's horizontal speed moves 5% of the way toward 60 px/s in the
      player's direction; every other kind keeps its velocity. */
  function Steer(o: Obstacle, now: real, playerX: real, wave: real -> real): (r: Obstacle)
    ensures r.kind == o.kind && r.x == o.x && r.y == o.y && r.vy == o.vy && r.sway == o.sway
    ensures o.kind != Sine && o.kind != Ghost ==> r == o
    ensures o.kind == Ghost ==>
              var target := Sign(playerX - o.x) * HomingSpeed;
              && Abs(target - r.vx) == (1.0 - HomingRate) * Abs(target - o.vx)
              && (o.vx <= target ==> o.vx <= r.vx <= target)
              && (target <= o.vx ==> target <= r.vx <= o.vx)
  {
    match o.kind
    case Sine =>
      (match o.sway
       case Sway(t0, amp, freq) => o.(vx := wave((now - t0) / 1000.0 * freq) * amp)
       case Level => o)
    case Ghost =>
      o.(vx := Linear(o.vx, Sign(playerX - o.x) * HomingSpeed, HomingRate))
    case _ => o
  }

  /** With `wave` bounded by 1 in magnitude, a swaying obstacle's sideways
      speed never exceeds its amplitude. */
  lemma SwayWithinAmplitude(o: Obstacle, now: real, playerX: real, wave: real -> real)
    requires o.kind == Sine && o.sway.Sway? && o.sway.amp >= 0.0
    requires forall x :: -1.0 <= wave(x) <= 1.0
    ensures -o.sway.amp <= Steer(o, now, playerX, wave).vx <= o.sway.amp
  {
  }

  /** The pruning test: below the bottom edge, or beside either side edge,
      by more than the margin. */
  predicate Offscreen(o: Obstacle, field: Field) {
    o.y > field.h + Margin || o.x < -Margin || o.x > field.w + Margin
  }

  /** Removes exactly the obstacles that are off screen: every copy of an
      off-screen obstacle goes, every copy of any other stays. */
  function OnScreen(obs: seq<Obstacle>, field: Field): (r: seq<Obstacle>)
    ensures forall o :: multiset(r)[o] == if Offscreen(o, field) then 0 else multiset(obs)[o]
    ensures forall i :: 0 <= i < |r| ==> !Offscreen(r[i], field)
    ensures |r| <= |obs|
  {
    if obs == [] then []
    else
      var rest := OnScreen(obs[..|obs| - 1], field);
      assert obs == obs[..|obs| - 1] + [obs[|obs| - 1]];
      if Offscreen(obs[|obs| - 1], field) then rest else rest + [obs[|obs| - 1]]
  }

  /** Steering of every obstacle, position by position. */
  function SteerAll(obs: seq<Obstacle>, now: real, playerX: real, wave: real -> real): (r: seq<Obstacle>)
    ensures |r| == |obs| && forall i :: 0 <= i < |obs| ==> r[i] == Steer(obs[i], now, playerX, wave)
  {
    seq(|obs|, i requires 0 <= i < |obs| => Steer(obs[i], now, playerX, wave))
  }

  /** One frame's pass over the obstacles: steer them all, then remove those
      off screen. Steering does not move anything, so an obstacle is kept
      (steered) exactly when its position is within the margins. */
  function Pass(obs: seq<Obstacle>, now: real, playerX: real, wave: real -> real, field: Field): (r: seq<Obstacle>)
    ensures |r| <= |obs|
    ensures forall i :: 0 <= i < |r| ==> !Offscreen(r[i], field)
    ensures forall i :: 0 <= i < |obs| ==>
              (Steer(obs[i], now, playerX, wave) in r <==> !Offscreen(obs[i], field))
    ensures forall i :: 0 <= i < |obs| && WellTagged(obs[i]) ==> WellTagged(Steer(obs[i], now, playerX, wave))
    ensures forall o :: multiset(r)[o] == if Offscreen(o, field) then 0 else multiset(SteerAll(obs, now, playerX, wave))[o]
  {
    var steered := SteerAll(obs, now, playerX, wave);
    var r := OnScreen(steered, field);
    assert forall i :: 0 <= i < |obs| ==> steered[i] in multiset(steered);
    r
  }
}

=== FILE: difficulty.dfy ===
/** The difficulty curve: how the spawn interval, the fall speed and the
    largest wave size depend on the elapsed time `t` of a run, in seconds. */
module Difficulty {

  /** Initial fall speed, in px/s. */
  const BaseSpeed: real := 180.0
  /** Fall-speed increase per elapsed second. */
  const SpeedPerSec: real := 4.5
  /** Initial delay between two waves, in ms. */
  const BaseSpawnMs: real := 900.0
  /** The delay between two waves never drops below this, in ms. */
  const MinSpawnMs: real := 260.0
  /** Milliseconds taken off the delay per elapsed second. */
  const SpawnEase: real := 11.0
  /** Chance that a wave also releases a life item. */
  const RareItemProb: real := 0.005

  /** The delay before the next wave: a linear decay clamped to a floor. */
  function SpawnInterval(t: real): (ms: real)
    ensures ms >= MinSpawnMs
    ensures t <= 0.0 ==> ms >= BaseSpawnMs
    ensures t == 0.0 ==> ms == BaseSpawnMs
    ensures ms <= BaseSpawnMs || t < 0.0
  {
    if BaseSpawnMs - t * SpawnEase > MinSpawnMs then BaseSpawnMs - t * SpawnEase else MinSpawnMs
  }

  /** Waves never come faster as time goes back, and never slower as it goes on. */
  lemma SpawnIntervalNonIncreasing(t1: real, t2: real)
    requires t1 <= t2
    ensures SpawnInterval(t2) <= SpawnInterval(t1)
  {
  }

  /** The floor is reached exactly when 900 - 11t has fallen to 260, i.e. at t = 640/11 s. */
  lemma SpawnIntervalFloor(t: real)
    ensures SpawnInterval(t) == MinSpawnMs <==> t >= (BaseSpawnMs - MinSpawnMs) / SpawnEase
  {
  }

  /** Fall speed of a wave: a linear, unbounded ramp. */
  function FallSpeed(t: real): (v: real)
    ensures t == 0.0 ==> v == BaseSpeed
    ensures t >= 0.0 ==> v >= BaseSpeed
    ensures v > 0.0 <==> t > -BaseSpeed / SpeedPerSec
  {
    BaseSpeed + SpeedPerSec * t
  }

  lemma FallSpeedIncreasing(t1: real, t2: real)
    requires t1 < t2
    ensures FallSpeed(t1) < FallSpeed(t2)
  {
  }

  /** The largest wave size: one more obstacle allowed every 12 s, up to 3. */
  function WaveMax(t: real): (m: int)
    ensures m <= 3
    ensures 0.0 <= t < 12.0 ==> m == 1
    ensures 12.0 <= t < 24.0 ==> m == 2
    ensures 24.0 <= t ==> m == 3
  {
    1 + Min(2, (t / 12.0).Floor)
  }

  function Min(a: int, b: int): (m: int) {
    if a <= b then a else b
  }

  lemma WaveMaxNonDecreasing(t1: real, t2: real)
    requires t1 <= t2
    ensures WaveMax(t1) <= WaveMax(t2)
  {
  }
}

=== FILE: kinds.dfy ===
/** The kind selector: which archetype of obstacle a wave asks for, given the
    elapsed time `t` (seconds) and one uniform draw `u`. */
module Kinds {

  /** The obstacle archetypes a wave may request. */
  datatype Kind = Drop | Diag | Sine | Ghost | Banana

  /** The library's clamp of `v` into [lo, hi]. */
  function Clamp(v: real, lo: real, hi: real): (r: real)
    requires lo <= hi
    ensures lo <= r <= hi
    ensures lo <= v <= hi ==> r == v
  {
    if v < lo then lo else if v > hi then hi else v
  }

  /** Probability band of the homing ghost: 0.10 rising to 0.30. */
  function PGhost(t: real): (p: real)
    ensures 0.1 <= p <= 0.3
    ensures t <= 0.0 ==> p == 0.1
    ensures t >= 40.0 ==> p == 0.3
  {
    Clamp(0.1 + 0.005 * t, 0.1, 0.3)
  }

  /** Probability band of the spinning banana: zero until 5 s, then up to 0.30. */
  function PBanana(t: real): (p: real)
    ensures 0.0 <= p <= 0.3
    ensures t <= 5.0 ==> p == 0.0
    ensures t >= 20.0 ==> p == 0.3
  {
    Clamp(0.02 * (t - 5.0), 0.0, 0.3)
  }

  /** Probability band of the swaying obstacle: zero until 15 s, then up to 0.25. */
  function PSine(t: real): (p: real)
    ensures 0.0 <= p <= 0.25
    ensures t <= 15.0 ==> p == 0.0
    ensures t >= 40.0 ==> p == 0.25
  {
    Clamp(0.01 * (t - 15.0), 0.0, 0.25)
  }

  /** Probability band of the diagonal sweeper: 0.15 rising to 0.30. */
  function PDiag(t: real): (p: real)
    ensures 0.15 <= p <= 0.3
    ensures t <= 0.0 ==> p == 0.15
    ensures t >= 30.0 ==> p == 0.3
  {
    Clamp(0.15 + 0.005 * t, 0.15, 0.3)
  }

  /** The cumulative threshold below which a draw selects `k` or a kind before
      it in the fixed order Ghost, Banana, Sine, Diag; for Drop, the fallback,
      this is the total of the four bands. */
  function Upto(t: real, k: Kind): (c: real)
    ensures 0.0 <= c <= 1.15
  {
    match k
    case Ghost => PGhost(t)
    case Banana => PGhost(t) + PBanana(t)
    case Sine => PGhost(t) + PBanana(t) + PSine(t)
    case Diag => PGhost(t) + PBanana(t) + PSine(t) + PDiag(t)
    case Drop => PGhost(t) + PBanana(t) + PSine(t) + PDiag(t)
  }

  /** The cumulative threshold at which the draws selecting `k` begin: the
      total of the bands before `k` in the order Ghost, Banana, Sine, Diag
      (0 for Ghost). */
  function Below(t: real, k: Kind): (c: real)
    ensures 0.0 <= c <= Upto(t, k)
  {
    match k
    case Ghost => 0.0
    case Banana => Upto(t, Ghost)
    case Sine => Upto(t, Banana)
    case Diag => Upto(t, Sine)
    case Drop => Upto(t, Diag)
  }

  /** Selection of an obstacle kind: walk the bands in the order Ghost,
      Banana, Sine, Diag, accumulating their mass, and return the first kind
      whose cumulative threshold exceeds the draw; Drop is the fallback.
      Overlapping mass therefore favours earlier kinds. */
  function PickKind(t: real, u: real): (k: Kind)
    ensures k == Ghost <==> u < PGhost(t)
    ensures k == Banana <==> PGhost(t) <= u < PGhost(t) + PBanana(t)
    ensures k == Sine <==> PGhost(t) + PBanana(t) <= u < PGhost(t) + PBanana(t) + PSine(t)
    ensures k == Diag <==> PGhost(t) + PBanana(t) + PSine(t) <= u < PGhost(t) + PBanana(t) + PSine(t) + PDiag(t)
    ensures k == Drop <==> u >= PGhost(t) + PBanana(t) + PSine(t) + PDiag(t)
  {
    var pGhost, pBanana, pSine, pDiag := PGhost(t), PBanana(t), PSine(t), PDiag(t);
    if u < pGhost then Ghost
    else if u < pGhost + pBanana then Banana
    else if u < pGhost + pBanana + pSine then Sine
    else if u < pGhost + pBanana + pSine + pDiag then Diag
    else Drop
  }

  /** The selector agrees with the interval view: each kind owns the draws in
      [Below(t, k), Upto(t, k)), except Drop, which owns everything from the
      total upward (draws are never negative). */
  lemma PickKindIntervals(t: real, u: real, k: Kind)
    requires 0.0 <= u
    ensures k != Drop ==> (PickKind(t, u) == k <==> Below(t, k) <= u < Upto(t, k))
    ensures k == Drop ==> (PickKind(t, u) == k <==> Below(t, k) <= u)
  {
  }

  /** The share of draws in [0, 1) that a kind receives: the length of its
      interval clipped to [0, 1). */
  function Share(t: real, k: Kind): (s: real)
    ensures 0.0 <= s <= 1.0
  {
    if k == Drop then 1.0 - Clip(Below(t, k)) else Clip(Upto(t, k)) - Clip(Below(t, k))
  }

  function Clip(x: real): (r: real) {
    if x < 0.0 then 0.0 else if x > 1.0 then 1.0 else x
  }

  /** The effective shares form a probability distribution: none is negative
      (Drop included, even when the bands sum past 1) and together they are 1. */
  lemma SharesAreDistribution(t: real)
    ensures forall k: Kind :: 0.0 <= Share(t, k)
    ensures Share(t, Ghost) + Share(t, Banana) + Share(t, Sine) + Share(t, Diag) + Share(t, Drop) == 1.0
  {
  }

  /** Before 5 s only ghosts, diagonals and drops are requested; before 15 s
      no swaying obstacle is requested. */
  lemma EarlyKinds(t: real, u: real)
    ensures t <= 5.0 ==> PickKind(t, u) != Banana && PickKind(t, u) != Sine
    ensures t <= 15.0 ==> PickKind(t, u) != Sine
  {
  }

  /** Every band is non-decreasing in `t`, so the combined share of the
      non-drop kinds never falls and a drop never becomes more likely. */
  lemma BandsNonDecreasing(t1: real, t2: real)
    requires t1 <= t2
    ensures PGhost(t1) <= PGhost(t2) && PBanana(t1) <= PBanana(t2)
    ensures PSine(t1) <= PSine(t2) && PDiag(t1) <= PDiag(t2)
    ensures Share(t2, Drop) <= Share(t1, Drop)
  {
  }

  /** A single kind can still become rarer: once the bands sum past 1 the
      ordered walk cuts the diagonal's interval short, halving its share
      between 30 s and 40 s although its band stays at 0.3. */
  lemma DiagShareShrinksLate()
    ensures PDiag(30.0) == PDiag(40.0) == 0.3
    ensures Share(30.0, Diag) == 0.3 && Share(40.0, Diag) == 0.15
  {
  }

  /** From 40 s on the four bands add up to 1.15, so a draw in [0, 1) never
      falls through to Drop: the ordered walk is not a normalised distribution. */
  lemma DropStarvesLate(t: real, u: real)
    requires t >= 40.0 && 0.0 <= u < 1.0
    ensures Upto(t, Drop) == 1.15
    ensures PickKind(t, u) != Drop
    ensures Share(t, Drop) == 0.0
  {
  }
}

=== FILE: obstacles.dfy ===
/** Obstacles and life items as plain tagged records, and the spawn geometry
    of each kind: where a new obstacle appears and how it starts moving. */
module Obstacles {
  import opened Random
  import opened Kinds

  /** The play field, in px. */
  datatype Field = Field(w: real, h: real)

  /** The configured game size. */
  const Screen: Field := Field(480.0, 800.0)

  /** A field wide and tall enough for every spawn range to be non-empty. */
  predicate Roomy(field: Field) {
    field.w >= 48.0 && field.h >= 80.0
  }

  /** The per-obstacle data only swaying obstacles carry: spawn time (ms),
      amplitude (px/s) and frequency (Hz). */
  datatype Sway = Level | Sway(t0: real, amp: real, freq: real)

  /** One active obstacle: its kind tag, position and velocity. */
  datatype Obstacle = Obstacle(kind: Kind, x: real, y: real, vx: real, vy: real, sway: Sway)

  /** A life pickup falling straight down. */
  datatype Item = Item(x: real, y: real, vy: real)

  /** Exactly the swaying obstacles carry sway data. */
  predicate WellTagged(o: Obstacle) {
    o.kind == Sine <==> o.sway.Sway?
  }

  /** A freshly spawned obstacle falls, and one spawned beside the field
      moves horizontally into it. */
  predicate Heading(o: Obstacle, field: Field) {
    && o.vy > 0.0
    && (o.x < 0.0 ==> o.vx > 0.0)
    && (o.x > field.w ==> o.vx < 0.0)
  }

  /** vy * (lo + u * span): a speed jittered by one draw u. */
  function Jitter(vy: real, lo: real, span: real, u: real): (v: real)
    ensures vy > 0.0 && lo > 0.0 && span > 0.0 && 0.0 <= u < 1.0 ==> vy * lo <= v < vy * (lo + span)
  {
    assert vy > 0.0 && lo > 0.0 && span > 0.0 && 0.0 <= u < 1.0 ==> vy * lo <= vy * (lo + u * span) < vy * (lo + span) by {
      if vy > 0.0 && lo > 0.0 && span > 0.0 && 0.0 <= u < 1.0 {
        var f := Spread(u, lo, span);
        assert lo <= f < lo + span;
        assert vy * (f - lo) >= 0.0;
        assert vy * (lo + span - f) > 0.0;
      }
    }
    vy * (lo + u * span)
  }

  /** A horizontal speed signed toward the far edge: positive when entering
      from the left, negative from the right. */
  function Toward(fromLeft: bool, speed: real): (v: real) {
    if fromLeft then speed else -speed
  }

  /** Falls straight down from above the top edge at the wave's speed. */
  function SpawnDrop(vy: real, field: Field, src: Source): (r: Drawn<Obstacle>)
    ensures r.src == src.(next := src.next + 1)
    ensures Uniform(src) ==> Uniform(r.src)
    ensures r.value.kind == Drop && r.value.vx == 0.0 && r.value.vy == vy && r.value.y < 0.0
    ensures Uniform(src) && Roomy(field) ==> 24.0 <= r.value.x < field.w - 24.0 + 1.0
    ensures Uniform(src) && Roomy(field) && field.w == field.w.Floor as real ==> r.value.x <= field.w - 24.0
    ensures Uniform(src) && vy > 0.0 ==> vy * 0.5 <= r.value.vy <= vy
  {
    var x := Between(src, 24.0, field.w - 24.0);
    assert field.w == field.w.Floor as real ==> field.w - 24.0 == (field.w - 24.0).Floor as real by {
      if field.w == field.w.Floor as real {
        assert field.w - 24.0 == (field.w.Floor - 24) as real;
      }
    }
    Drawn(Obstacle(Drop, x.value as real, -40.0, 0.0, vy, Level), x.src)
  }

  /** Enters from the left or right edge (one draw each way), in the upper
      half, moving toward the far side and down. */
  function SpawnDiag(vy: real, field: Field, src: Source): (r: Drawn<Obstacle>)
    ensures r.src == src.(next := src.next + 4)
    ensures Uniform(src) ==> Uniform(r.src)
    ensures r.value.kind == Diag && (r.value.x == -30.0 || r.value.x == field.w + 30.0)
    ensures Uniform(src) && Roomy(field) ==> 40.0 <= r.value.y < field.h * 0.5 + 1.0
    ensures Uniform(src) && Roomy(field) && field.h * 0.5 == (field.h * 0.5).Floor as real ==> r.value.y <= field.h * 0.5
    ensures Uniform(src) && vy > 0.0 ==> vy * 0.6 <= r.value.vy < vy * 0.9
    ensures Uniform(src) && Roomy(field) && vy > 0.0 && r.value.x < 0.0 ==> vy * 0.5 <= r.value.vx < vy * 0.9
    ensures Uniform(src) && Roomy(field) && vy > 0.0 && r.value.x > 0.0 ==> -vy * 0.9 < r.value.vx <= -vy * 0.5
    ensures Uniform(src) && vy > 0.0 ==> vy * 0.5 <= r.value.vy <= vy
    ensures Roomy(field) ==> (r.value.x == -30.0 <==> src.draw(src.next) < 0.5)
  {
    var side := Next(src);
    var fromLeft := side.value < 0.5;
    var x := if fromLeft then -30.0 else field.w + 30.0;
    var y := Between(side.src, 40.0, field.h * 0.5);
    var across := Next(y.src);
    var down := Next(across.src);
    var vx := Toward(fromLeft, Jitter(vy, 0.5, 0.4, across.value));
    Drawn(Obstacle(Diag, x, y.value as real, vx, Jitter(vy, 0.6, 0.3, down.value), Level), down.src)
  }

  /** Falls from above the top edge, with a random amplitude and frequency
      for the per-frame sway; its spawn time is the current clock. */
  function SpawnSine(vy: real, now: real, field: Field, src: Source): (r: Drawn<Obstacle>)
    ensures r.src == src.(next := src.next + 4)
    ensures Uniform(src) ==> Uniform(r.src)
    ensures r.value.kind == Sine && r.value.vx == 0.0 && r.value.y < 0.0
    ensures r.value.sway.Sway? && r.value.sway.t0 == now
    ensures Uniform(src) && Roomy(field) ==> 24.0 <= r.value.x < field.w - 24.0 + 1.0
    ensures Uniform(src) && Roomy(field) && field.w == field.w.Floor as real ==> r.value.x <= field.w - 24.0
    ensures Uniform(src) && vy > 0.0 ==> vy * 0.8 <= r.value.vy < vy
    ensures Uniform(src) ==> 120.0 <= r.value.sway.amp <= 220.0 && 0.6 <= r.value.sway.freq < 1.3
    ensures Uniform(src) && vy > 0.0 ==> vy * 0.5 <= r.value.vy <= vy
  {
    var x := Between(src, 24.0, field.w - 24.0);
    assert field.w == field.w.Floor as real ==> field.w - 24.0 == (field.w - 24.0).Floor as real by {
      if field.w == field.w.Floor as real {
        assert field.w - 24.0 == (field.w.Floor - 24) as real;
      }
    }
    var down := Next(x.src);
    var amp := Between(down.src, 120.0, 220.0);
    var freq := FloatBetween(amp.src, 0.6, 1.3);
    Drawn(Obstacle(Sine, x.value as real, -30.0, 0.0, Jitter(vy, 0.8, 0.2, down.value),
                   Sway(now, amp.value as real, freq.value)), freq.src)
  }

  /** Enters from the left or right edge in the middle band, moving toward
      the far side and down (its spin is cosmetic). */
  function SpawnBanana(vy: real, field: Field, src: Source): (r: Drawn<Obstacle>)
    ensures r.src == src.(next := src.next + 4)
    ensures Uniform(src) ==> Uniform(r.src)
    ensures r.value.kind == Banana && (r.value.x == -30.0 || r.value.x == field.w + 30.0)
    ensures Uniform(src) && field.h >= 0.0 ==> (field.h * 0.2).Floor as real <= r.value.y < field.h * 0.6 + 1.0
    ensures Uniform(src) && vy > 0.0 ==> vy * 0.5 <= r.value.vy < vy * 0.7
    ensures Uniform(src) && Roomy(field) && vy > 0.0 && r.value.x < 0.0 ==> vy * 0.4 <= r.value.vx < vy * 0.7
    ensures Uniform(src) && Roomy(field) && vy > 0.0 && r.value.x > 0.0 ==> -vy * 0.7 < r.value.vx <= -vy * 0.4
    ensures Uniform(src) && vy > 0.0 ==> vy * 0.5 <= r.value.vy <= vy
    ensures Roomy(field) ==> (r.value.x == -30.0 <==> src.draw(src.next) < 0.5)
  {
    var side := Next(src);
    var fromLeft := side.value < 0.5;
    var x := if fromLeft then -30.0 else field.w + 30.0;
    var y := Between(side.src, field.h * 0.2, field.h * 0.6);
    var across := Next(y.src);
    var down := Next(across.src);
    var vx := Toward(fromLeft, Jitter(vy, 0.4, 0.3, across.value));
    Drawn(Obstacle(Banana, x, y.value as real, vx, Jitter(vy, 0.5, 0.2, down.value), Level), down.src)
  }

  /** Drifts down slowly from above the central band of the field. */
  function SpawnGhost(vy: real, field: Field, src: Source): (r: Drawn<Obstacle>)
    ensures r.src == src.(next := src.next + 1)
    ensures Uniform(src) ==> Uniform(r.src)
    ensures r.value.kind == Ghost && r.value.vx == 0.0 && r.value.vy == vy * 0.5 && r.value.y < 0.0
    ensures Uniform(src) && field.w >= 0.0 ==> (field.w * 0.2).Floor as real <= r.value.x < field.w * 0.8 + 1.0
    ensures Uniform(src) && vy > 0.0 ==> vy * 0.5 <= r.value.vy <= vy
  {
    var x := Between(src, field.w * 0.2, field.w * 0.8);
    Drawn(Obstacle(Ghost, x.value as real, -30.0, 0.0, vy * 0.5, Level), x.src)
  }

  /** Every obstacle from index `from` on is well tagged. */
  predicate TaggedFrom(s: seq<Obstacle>, from: nat) {
    forall i :: from <= i < |s| ==> WellTagged(s[i])
  }

  /** Every obstacle from index `from` on is heading into the field. */
  predicate HeadingFrom(s: seq<Obstacle>, from: nat, field: Field) {
    forall i :: from <= i < |s| ==> Heading(s[i], field)
  }

  /** Every obstacle from index `from` on has one of the kinds `ks`. */
  predicate KindsFrom(s: seq<Obstacle>, from: nat, ks: set<Kind>) {
    forall i :: from <= i < |s| ==> s[i].kind in ks
  }

  /** Every obstacle from index `from` on falls at between half and all of
      the wave speed `vy`. */
  predicate SpeedsFrom(s: seq<Obstacle>, from: nat, vy: real) {
    forall i :: from <= i < |s| ==> vy * 0.5 <= s[i].vy <= vy
  }

  /** Two appends in a row are one append of what both added. */
  lemma AppendTwice(a: seq<Obstacle>, b: seq<Obstacle>, c: seq<Obstacle>, field: Field)
    requires |a| <= |b| <= |c| && b[..|a|] == a && c[..|b|] == b
    ensures c[..|a|] == a
    ensures TaggedFrom(b, |a|) && TaggedFrom(c, |b|) ==> TaggedFrom(c, |a|)
    ensures HeadingFrom(b, |a|, field) && HeadingFrom(c, |b|, field) ==> HeadingFrom(c, |a|, field)
    ensures forall vy :: SpeedsFrom(b, |a|, vy) && SpeedsFrom(c, |b|, vy) ==> SpeedsFrom(c, |a|, vy)
  {
  }

  /** Appending `added` to `obs` keeps `obs` as a prefix, and what holds of
      `added` from its start holds of the result from `|obs|` on. */
  lemma Appended(obs: seq<Obstacle>, added: seq<Obstacle>, field: Field, vy: real, ks: set<Kind>)
    ensures (obs + added)[..|obs|] == obs
    ensures TaggedFrom(added, 0) ==> TaggedFrom(obs + added, |obs|)
    ensures HeadingFrom(added, 0, field) ==> HeadingFrom(obs + added, |obs|, field)
    ensures KindsFrom(added, 0, ks) ==> KindsFrom(obs + added, |obs|, ks)
    ensures SpeedsFrom(added, 0, vy) ==> SpeedsFrom(obs + added, |obs|, vy)
  {
    forall i | |obs| <= i < |obs + added|
      ensures (obs + added)[i] == added[i - |obs|]
    {
    }
  }

  /** Two appends in a row whose kinds both lie in `ks` add only kinds in `ks`. */
  lemma KindsAppendTwice(a: seq<Obstacle>, b: seq<Obstacle>, c: seq<Obstacle>, ks: set<Kind>)
    requires |a| <= |b| <= |c| && c[..|b|] == b
    requires KindsFrom(b, |a|, ks) && KindsFrom(c, |b|, ks)
    ensures KindsFrom(c, |a|, ks)
  {
    forall i | |a| <= i < |b|
      ensures c[i].kind in ks
    {
      assert c[i] == c[..|b|][i];
    }
  }

  /** The obstacles one request of `kind` adds: one for drop, diag and sine;
      banana and ghost fall through the swaying block first and so add a
      swaying obstacle before their own. */
  function Spawns(kind: Kind): (n: nat)
    ensures 1 <= n <= 2
  {
    if kind == Banana || kind == Ghost then 2 else 1
  }

  /** The obstacles one request of `kind` creates, in creation order. */
  function Created(kind: Kind, vy: real, now: real, field: Field, src: Source): (r: Drawn<seq<Obstacle>>)
    ensures |r.value| == Spawns(kind)
    ensures r.src.draw == src.draw && src.next < r.src.next
    ensures r.value[|r.value| - 1].kind == kind
    ensures kind == Banana || kind == Ghost ==> r.value[0].kind == Sine
    ensures KindsFrom(r.value, 0, {kind, Sine})
    ensures TaggedFrom(r.value, 0)
    ensures Uniform(src) ==> Uniform(r.src)
    ensures Uniform(src) && Roomy(field) && vy > 0.0 ==> HeadingFrom(r.value, 0, field)
    ensures Uniform(src) && vy > 0.0 ==> SpeedsFrom(r.value, 0, vy)
  {
    if kind == Drop then
      var o := SpawnDrop(vy, field, src);
      Drawn([o.value], o.src)
    else if kind == Diag then
      var o := SpawnDiag(vy, field, src);
      Drawn([o.value], o.src)
    else
      var sway := SpawnSine(vy, now, field, src);
      if kind == Banana then
        var o := SpawnBanana(vy, field, sway.src);
        Drawn([sway.value, o.value], o.src)
      else if kind == Ghost then
        var o := SpawnGhost(vy, field, sway.src);
        Drawn([sway.value, o.value], o.src)
      else
        Drawn([sway.value], sway.src)
  }

  /** Appends the obstacles one request of `kind` creates, at fall speed `vy`. */
  function SpawnObstacle(obs: seq<Obstacle>, kind: Kind, vy: real, now: real, field: Field, src: Source)
    : (r: Drawn<seq<Obstacle>>)
    ensures |r.value| == |obs| + Spawns(kind)
    ensures r.value[..|obs|] == obs
    ensures r.src.draw == src.draw && src.next < r.src.next
    ensures r.value[|r.value| - 1].kind == kind
    ensures kind == Banana || kind == Ghost ==> r.value[|obs|].kind == Sine
    ensures KindsFrom(r.value, |obs|, {kind, Sine})
    ensures TaggedFrom(r.value, |obs|)
    ensures Uniform(src) ==> Uniform(r.src)
    ensures Uniform(src) && Roomy(field) && vy > 0.0 ==> HeadingFrom(r.value, |obs|, field)
    ensures Uniform(src) && vy > 0.0 ==> SpeedsFrom(r.value, |obs|, vy)
  {
    var added := Created(kind, vy, now, field, src);
    Appended(obs, added.value, field, vy, {kind, Sine});
    assert (obs + added.value)[|obs|] == added.value[0];
    Drawn(obs + added.value, added.src)
  }

  /** Appends one life item falling straight down at `vy`. */
  function SpawnLife(items: seq<Item>, vy: real, field: Field, src: Source): (r: Drawn<seq<Item>>)
    ensures |r.value| == |items| + 1 && r.value[..|items|] == items
    ensures r.value[|items|].vy == vy && r.value[|items|].y < 0.0
    ensures r.src == src.(next := src.next + 1)
    ensures Uniform(src) && Roomy(field) ==> 20.0 <= r.value[|items|].x < field.w - 20.0 + 1.0
    ensures Uniform(src) && Roomy(field) && field.w == field.w.Floor as real ==> r.value[|items|].x <= field.w - 20.0
    ensures Uniform(src) ==> Uniform(r.src)
  {
    var x := Between(src, 20.0, field.w - 20.0);
    assert field.w == field.w.Floor as real ==> field.w - 20.0 == (field.w - 20.0).Floor as real by {
      if field.w == field.w.Floor as real {
        assert field.w - 20.0 == (field.w.Floor - 20) as real;
      }
    }
    Drawn(items + [Item(x.value as real, -20.0, vy)], x.src)
  }

  /** On the configured 480 x 800 field every spawn range is non-empty and
      the integer draws land exactly within the source's bounds: a drop or a
      swaying obstacle in [24, 456], a diagonal in rows [40, 400], a life item
      in [20, 460]. */
  lemma ScreenSpawnRanges(vy: real, now: real, items: seq<Item>, src: Source)
    requires Uniform(src)
    ensures Roomy(Screen)
    ensures 24.0 <= SpawnDrop(vy, Screen, src).value.x <= 456.0
    ensures 24.0 <= SpawnSine(vy, now, Screen, src).value.x <= 456.0
    ensures 40.0 <= SpawnDiag(vy, Screen, src).value.y <= 400.0
    ensures 20.0 <= SpawnLife(items, vy, Screen, src).value[|items|].x <= 460.0
  {
  }
}

=== FILE: random.dfy ===
/** The game's only source of nondeterminism: the stream of `Math.random()`
    draws, and the two library helpers built on a single draw (an integer
    between two bounds, a float between two bounds).

    The stream is modelled as an infinite sequence of reals together with the
    index of the next unread draw, so every operation that draws states exactly
    how many draws it consumes and in which order. */
module Random {

  /** An infinite stream of draws; `next` is the index of the next unread one. */
  datatype Source = Source(draw: nat -> real, next: nat)

  /** A value obtained by drawing, together with the stream that is left. */
  datatype Drawn<+T> = Drawn(value: T, src: Source)

  /** Every draw of the stream lies in [0, 1), as `Math.random()` promises. */
  ghost predicate Uniform(src: Source) {
    forall i: nat :: 0.0 <= src.draw(i) < 1.0
  }

  /** u * width + lo: a draw u stretched over the interval [lo, lo + width). */
  function Spread(u: real, lo: real, width: real): (v: real)
    ensures 0.0 <= u < 1.0 && width > 0.0 ==> lo <= v < lo + width
  {
    assert 0.0 <= u < 1.0 && width > 0.0 ==> 0.0 <= u * width < width by {
      if 0.0 <= u < 1.0 && width > 0.0 {
        assert (1.0 - u) * width > 0.0;
      }
    }
    u * width + lo
  }

  /** `Math.random()`: one draw. */
  function Next(src: Source): (r: Drawn<real>)
    ensures r.src == src.(next := src.next + 1)
    ensures Uniform(src) ==> 0.0 <= r.value < 1.0 && Uniform(r.src)
  {
    Drawn(src.draw(src.next), src.(next := src.next + 1))
  }

  /** The library's uniform integer in [lo, hi]: floor(u * (hi - lo + 1) + lo)
      for one draw u. */
  function Between(src: Source, lo: real, hi: real): (r: Drawn<int>)
    ensures r.src == src.(next := src.next + 1)
    ensures Uniform(src) ==> Uniform(r.src)
    ensures Uniform(src) && lo <= hi ==> lo.Floor <= r.value && (r.value as real) < hi + 1.0
    ensures Uniform(src) && lo <= hi && hi == hi.Floor as real ==> r.value <= hi.Floor
  {
    var u := Next(src);
    Drawn(Spread(u.value, lo, hi - lo + 1.0).Floor, u.src)
  }

  /** The library's uniform real in [lo, hi): u * (hi - lo) + lo for one draw u. */
  function FloatBetween(src: Source, lo: real, hi: real): (r: Drawn<real>)
    ensures r.src == src.(next := src.next + 1)
    ensures Uniform(src) ==> Uniform(r.src)
    ensures Uniform(src) && lo < hi ==> lo <= r.value < hi
  {
    var u := Next(src);
    Drawn(Spread(u.value, lo, hi - lo), u.src)
  }
}

=== FILE: session.dfy ===
/** The run and life state machine of the game scene: starting a run, the
    self-rescheduling spawn timer, the per-frame update, obstacle hits with
    their grace window, life pickups, and the end of a run. The clock `now`
    (ms) is always a parameter. */
module Session {
  import opened Random
  import opened Difficulty
  import opened Kinds
  import opened Obstacles
  import opened Spawner
  import opened Behavior

  /** Lives are capped at this many. */
  const MaxLives: int := 3
  /** After a hit, further hits are ignored for this long, in ms. */
  const GraceMs: real := 1000.0

  /** The pending spawn callback, if any: armed with the elapsed time `t`
      (seconds) read when it was armed, and the delay it waits. */
  datatype SpawnTimer = NoTimer | Armed(t: real, delay: real)

  /** The scene's game state. */
  datatype State = State(
    running: bool,
    lives: int,
    maxLives: int,
    invincibleUntil: real,
    startAt: real,
    elapsedMs: real,
    bestMs: real,
    obstacles: seq<Obstacle>,
    items: seq<Item>,
    timer: SpawnTimer)

  /** What every reachable state satisfies: lives within [0, maxLives] and
      at least one while running, a spawn timer pending exactly while running,
      never faster than the floor, and every obstacle tagged consistently. */
  ghost predicate Inv(s: State) {
    && s.maxLives == MaxLives
    && 0 <= s.lives <= s.maxLives
    && (s.running ==> s.lives >= 1)
    && (s.running <==> s.timer.Armed?)
    && (s.timer.Armed? ==> s.timer.delay >= MinSpawnMs)
    && TaggedFrom(s.obstacles, 0)
  }

  /** The state when the scene is created, before the first run; the best
      time is the stored one (0 when none was stored). */
  function Init(storedBestMs: real): (s: State)
    ensures Inv(s) && !s.running && s.bestMs == storedBestMs
  {
    State(false, 1, MaxLives, 0.0, 0.0, 0.0, storedBestMs, [], [], NoTimer)
  }

  /** Arms the spawn timer with the current elapsed time: the wave it will
      spawn uses this `t`, however late it fires. */
  function ScheduleNextSpawn(s: State): (r: State)
    ensures r.timer == Armed(s.elapsedMs / 1000.0, SpawnInterval(s.elapsedMs / 1000.0))
    ensures MinSpawnMs <= r.timer.delay
    ensures s.elapsedMs >= 0.0 ==> r.timer.delay <= BaseSpawnMs
    ensures r.(timer := s.timer) == s
  {
    var t := s.elapsedMs / 1000.0;
    s.(timer := Armed(t, SpawnInterval(t)))
  }

  /** The later the timer is re-armed in a run, the sooner it fires again:
      the delay never grows with the elapsed time. */
  lemma LaterArmingNeverWaitsLonger(s1: State, s2: State)
    requires s1.elapsedMs <= s2.elapsedMs
    ensures ScheduleNextSpawn(s2).timer.delay <= ScheduleNextSpawn(s1).timer.delay
  {
    SpawnIntervalNonIncreasing(s1.elapsedMs / 1000.0, s2.elapsedMs / 1000.0);
  }

  /** Starts (or restarts) a run at clock `now`. */
  function StartGame(s: State, now: real): (r: State)
    ensures r.running && r.lives == 1 && r.invincibleUntil == 0.0
    ensures r.startAt == now && r.elapsedMs == 0.0
    ensures r.obstacles == [] && r.items == []
    ensures r.bestMs == s.bestMs && r.maxLives == s.maxLives
    ensures r.timer == Armed(0.0, BaseSpawnMs)
  {
    var cleared := s.(running := true, lives := 1, invincibleUntil := 0.0, obstacles := [], items := [],
                      startAt := now, elapsedMs := 0.0);
    ScheduleNextSpawn(cleared)
  }

  /** Whatever happened in the previous run, a restart at the same clock
      yields the same state: only the best time and the cap carry over. */
  lemma StartGameForgetsPastRun(s1: State, s2: State, now: real)
    requires s1.bestMs == s2.bestMs && s1.maxLives == s2.maxLives
    ensures StartGame(s1, now) == StartGame(s2, now)
  {
  }

  /** Ends the run: the spawn timer is cancelled without firing and the
      best time is raised to this run's elapsed time if that is larger. */
  function GameOver(s: State): (r: State)
    ensures !r.running && r.timer == NoTimer
    ensures r.bestMs >= s.bestMs && r.bestMs >= s.elapsedMs
    ensures r.bestMs == s.bestMs || r.bestMs == s.elapsedMs
    ensures r.(running := s.running, timer := s.timer, bestMs := s.bestMs) == s
  {
    var stopped := s.(running := false, timer := NoTimer);
    if s.elapsedMs > s.bestMs then stopped.(bestMs := s.elapsedMs) else stopped
  }

  /** The spawn timer fires at clock `now`: a wave armed at the captured
      time, then the timer re-armed with the current elapsed time. Without a
      pending timer nothing fires. */
  function FireSpawnTimer(s: State, now: real, field: Field, src: Source): (r: Drawn<State>)
    ensures s.timer.NoTimer? ==> r.value == s
    ensures s.timer.Armed? ==>
              && r.value.timer == Armed(s.elapsedMs / 1000.0, SpawnInterval(s.elapsedMs / 1000.0))
              && r.value.(obstacles := s.obstacles, items := s.items, timer := s.timer) == s
              && |s.obstacles| <= |r.value.obstacles| && r.value.obstacles[..|s.obstacles|] == s.obstacles
              && |s.items| <= |r.value.items| && r.value.items[..|s.items|] == s.items
    ensures TaggedFrom(s.obstacles, 0) ==> TaggedFrom(r.value.obstacles, 0)
    ensures Uniform(src) ==> Uniform(r.src)
    ensures s.timer.Armed? ==>
              && r.value.obstacles == SpawnWave(s.obstacles, s.items, s.timer.t, now, field, src).value.obstacles
              && r.value.items == SpawnWave(s.obstacles, s.items, s.timer.t, now, field, src).value.items
    ensures Uniform(src) && s.timer.Armed? && s.timer.t >= 0.0 ==>
              |s.obstacles| + 1 <= |r.value.obstacles| <= |s.obstacles| + 2 * WaveMax(s.timer.t) <= |s.obstacles| + 6
  {
    match s.timer
    case NoTimer => Drawn(s, src)
    case Armed(t, _) =>
      var wave := SpawnWave(s.obstacles, s.items, t, now, field, src);
      assert TaggedFrom(s.obstacles, 0) ==> TaggedFrom(wave.value.obstacles, 0) by {
        if TaggedFrom(s.obstacles, 0) {
          forall i | 0 <= i < |s.obstacles|
            ensures WellTagged(wave.value.obstacles[i])
          {
            assert wave.value.obstacles[i] == wave.value.obstacles[..|s.obstacles|][i];
          }
        }
      }
      Drawn(ScheduleNextSpawn(s.(obstacles := wave.value.obstacles, items := wave.value.items)), wave.src)
  }

  /** The wave a firing spawns depends on the time captured when the timer
      was armed, not on the elapsed time at the moment it fires; only the
      re-armed timer sees the new elapsed time. */
  lemma WaveUsesArmedTime(s: State, elapsedMs: real, now: real, field: Field, src: Source)
    requires s.timer.Armed?
    ensures FireSpawnTimer(s, now, field, src).value.obstacles
         == FireSpawnTimer(s.(elapsedMs := elapsedMs), now, field, src).value.obstacles
    ensures FireSpawnTimer(s, now, field, src).value.items
         == FireSpawnTimer(s.(elapsedMs := elapsedMs), now, field, src).value.items
    ensures FireSpawnTimer(s.(elapsedMs := elapsedMs), now, field, src).value.timer.t == elapsedMs / 1000.0
  {
  }

  /** One frame at clock `now`: while a run is on, the elapsed time is
      refreshed and the obstacle pass runs with the player at `playerX`;
      otherwise nothing changes. Items are not pruned here. */
  function Frame(s: State, now: real, playerX: real, wave: real -> real, field: Field): (r: State)
    ensures !s.running ==> r == s
    ensures s.running ==>
              && r.elapsedMs == now - s.startAt
              && r.(elapsedMs := s.elapsedMs, obstacles := s.obstacles) == s
              && |r.obstacles| <= |s.obstacles|
              && (forall i :: 0 <= i < |r.obstacles| ==> !Offscreen(r.obstacles[i], field))
              && (forall i :: 0 <= i < |s.obstacles| ==>
                    (Steer(s.obstacles[i], now, playerX, wave) in r.obstacles <==> !Offscreen(s.obstacles[i], field)))
              && (forall o :: multiset(r.obstacles)[o] ==
                    if Offscreen(o, field) then 0 else multiset(SteerAll(s.obstacles, now, playerX, wave))[o])
    ensures TaggedFrom(s.obstacles, 0) ==> TaggedFrom(r.obstacles, 0)
  {
    if !s.running then s
    else
      var kept := Pass(s.obstacles, now, playerX, wave, field);
      assert TaggedFrom(s.obstacles, 0) ==> TaggedFrom(kept, 0) by {
        if TaggedFrom(s.obstacles, 0) {
          forall i | 0 <= i < |kept|
            ensures WellTagged(kept[i])
          {
            var ms := multiset(SteerAll(s.obstacles, now, playerX, wave));
            assert kept[i] in multiset(kept);
            assert kept[i] in ms;
            var steered := SteerAll(s.obstacles, now, playerX, wave);
            var j :| 0 <= j < |steered| && steered[j] == kept[i];
          }
        }
      }
      s.(elapsedMs := now - s.startAt, obstacles := kept)
  }

  /** An obstacle overlaps the player at clock `now`. Ignored unless a run is
      on and the grace window has passed; otherwise one life is lost, a new
      grace window opens, and losing the last life ends the run. The
      obstacle itself is never removed. */
  function OnHit(s: State, now: real): (r: State)
    ensures !s.running || now < s.invincibleUntil ==> r == s
    ensures s.running && now >= s.invincibleUntil ==>
              && r.lives == s.lives - 1
              && r.invincibleUntil == now + GraceMs
              && (r.running <==> r.lives > 0)
              && (r.lives > 0 ==> r.(lives := s.lives, invincibleUntil := s.invincibleUntil) == s)
              && (r.lives <= 0 ==> r == GameOver(s.(lives := s.lives - 1, invincibleUntil := now + GraceMs)))
    ensures r.obstacles == s.obstacles && r.items == s.items && r.elapsedMs == s.elapsedMs
  {
    if !s.running || now < s.invincibleUntil then s
    else
      var hurt := s.(lives := s.lives - 1, invincibleUntil := now + GraceMs);
      if hurt.lives <= 0 then GameOver(hurt) else hurt
  }

  /** Two hits less than the grace window apart cost at most one life. */
  lemma HitsWithinGraceCountOnce(s: State, first: real, second: real)
    requires first <= second < first + GraceMs
    ensures s.lives - 1 <= OnHit(OnHit(s, first), second).lives <= s.lives
    ensures s.running && first >= s.invincibleUntil ==> OnHit(OnHit(s, first), second) == OnHit(s, first)
  {
  }

  /** Losing the last life ends the run once: the best time is committed and
      every later hit is ignored. */
  lemma LastLifeEndsRunOnce(s: State, now: real, later: real)
    requires s.running && s.lives <= 1 && now >= s.invincibleUntil
    ensures !OnHit(s, now).running && OnHit(s, now).timer == NoTimer
    ensures OnHit(s, now).bestMs >= s.bestMs && OnHit(s, now).bestMs >= s.elapsedMs
    ensures OnHit(OnHit(s, now), later) == OnHit(s, now)
  {
  }

  /** The player touches the item at index `i`: the item is removed, and a
      life is gained unless the cap is reached. This holds whether or not a
      run is on. */
  function OnGetLife(s: State, i: nat): (r: State)
    requires i < |s.items|
    ensures r.items == s.items[..i] + s.items[i + 1..]
    ensures s.lives < s.maxLives ==> r.lives == s.lives + 1
    ensures s.lives >= s.maxLives ==> r.lives == s.lives
    ensures s.lives <= s.maxLives ==> r.lives <= s.maxLives
    ensures r.(items := s.items, lives := s.lives) == s
  {
    var taken := s.(items := s.items[..i] + s.items[i + 1..]);
    if taken.lives < taken.maxLives then taken.(lives := taken.lives + 1) else taken
  }

  /** Everything the scene reacts to. */
  datatype Event =
    | Start(now: real)
    | Fire(now: real, field: Field, src: Source)
    | Tick(now: real, playerX: real, wave: real -> real, field: Field)
    | Hit(now: real)
    | Pickup(index: nat)

  /** The scene's reaction to one event; a pickup is only delivered for an
      item that exists, so any other index changes nothing. */
  function Step(s: State, e: Event): (r: State) {
    match e
    case Start(now) => StartGame(s, now)
    case Fire(now, field, src) => FireSpawnTimer(s, now, field, src).value
    case Tick(now, playerX, wave, field) => Frame(s, now, playerX, wave, field)
    case Hit(now) => OnHit(s, now)
    case Pickup(i) => if i < |s.items| then OnGetLife(s, i) else s
  }

  /** Every event keeps the state invariant. */
  lemma StepKeepsInv(s: State, e: Event)
    requires Inv(s)
    ensures Inv(Step(s, e))
  {
  }

  /** Every state reached from the initial one by any events satisfies the
      invariant. */
  lemma {:induction false} ReachableKeepsInv(storedBestMs: real, events: seq<Event>)
    ensures Inv(Run(Init(storedBestMs), events))
    decreases |events|
  {
    if events != [] {
      ReachableKeepsInv(storedBestMs, events[..|events| - 1]);
      StepKeepsInv(Run(Init(storedBestMs), events[..|events| - 1]), events[|events| - 1]);
    }
  }

  /** The state after a sequence of events. */
  function Run(s: State, events: seq<Event>): (r: State)
    decreases |events|
  {
    if events == [] then s else Step(Run(s, events[..|events| - 1]), events[|events| - 1])
  }

  /** The clock after event `e`, when it was `clock` before: the time the
      event carries, or unchanged for a pickup, which carries none. */
  function After(clock: real, e: Event): (r: real) {
    if e.Pickup? then clock else e.now
  }

  /** Event `e` does not carry a time earlier than `clock`. */
  predicate NotBefore(clock: real, e: Event) {
    e.Pickup? || clock <= e.now
  }

  /** The clock after a sequence of events, starting from `clock0`. */
  function Latest(clock0: real, events: seq<Event>): (r: real)
    decreases |events|
  {
    if events == [] then clock0 else After(Latest(clock0, events[..|events| - 1]), events[|events| - 1])
  }

  /** The engine's clock never runs backwards: every event is stamped no
      earlier than the clock `clock0` at scene creation and than the events
      before it. */
  predicate Forward(clock0: real, events: seq<Event>)
    decreases |events|
  {
    events == [] ||
    (Forward(clock0, events[..|events| - 1]) && NotBefore(Latest(clock0, events[..|events| - 1]), events[|events| - 1]))
  }

  /** What the forward clock guarantees at clock `clock`: the elapsed time
      and the time a pending timer captured are never negative, and a run
      started no later than now and has not counted past it. */
  ghost predicate ClockInv(s: State, clock: real) {
    && s.elapsedMs >= 0.0
    && (s.timer.Armed? ==> s.timer.t >= 0.0)
    && (s.running ==> s.startAt <= clock)
    && (s.running ==> s.startAt + s.elapsedMs <= clock)
  }

  /** An event stamped no earlier than the clock keeps the clock invariant,
      and during a run only a restart can move the elapsed time backwards. */
  lemma StepKeepsClockInv(s: State, clock: real, e: Event)
    requires ClockInv(s, clock) && NotBefore(clock, e)
    ensures ClockInv(Step(s, e), After(clock, e))
    ensures s.running && !e.Start? ==> s.elapsedMs <= Step(s, e).elapsedMs
  {
  }

  /** With a forward clock, every reachable state has a non-negative elapsed
      time, and every pending timer captured a non-negative `t`. */
  lemma {:induction false} ForwardRunKeepsClockInv(storedBestMs: real, clock0: real, events: seq<Event>)
    requires Forward(clock0, events)
    ensures ClockInv(Run(Init(storedBestMs), events), Latest(clock0, events))
    decreases |events|
  {
    if events != [] {
      var before := events[..|events| - 1];
      ForwardRunKeepsClockInv(storedBestMs, clock0, before);
      StepKeepsClockInv(Run(Init(storedBestMs), before), Latest(clock0, before), events[|events| - 1]);
    }
  }

  /** With a forward clock, every firing of the spawn timer during a run
      adds between 1 and 6 obstacles. */
  lemma ReachableFiringSpawns(storedBestMs: real, clock0: real, events: seq<Event>, now: real, field: Field, src: Source)
    requires Forward(clock0, events) && Uniform(src) && Run(Init(storedBestMs), events).running
    ensures var s := Run(Init(storedBestMs), events);
            var r := FireSpawnTimer(s, now, field, src).value;
            |s.obstacles| + 1 <= |r.obstacles| <= |s.obstacles| + 6
  {
    ReachableKeepsInv(storedBestMs, events);
    ForwardRunKeepsClockInv(storedBestMs, clock0, events);
  }

  /** Start at 0 ms with one life, one frame at 500 ms, a hit at 500 ms: the
      run is over with 500 ms on the clock, and a lower best becomes 500. */
  lemma HitAtHalfSecondEndsRun(storedBestMs: real, playerX: real, wave: real -> real, field: Field)
    requires storedBestMs < 500.0
    ensures var s := OnHit(Frame(StartGame(Init(storedBestMs), 0.0), 500.0, playerX, wave, field), 500.0);
            !s.running && s.elapsedMs == 500.0 && s.bestMs == 500.0
  {
  }

  /** Start with one life, pick up an item at 1000 ms (two lives), get hit at
      2000 ms (one life, grace until 3000 ms), get hit again at 2500 ms: the
      second hit is ignored and the run goes on. */
  lemma PickupThenGraceWindow(storedBestMs: real, item: Item)
    ensures var s0 := StartGame(Init(storedBestMs), 0.0).(items := [item]);
            var s1 := OnGetLife(s0, 0);
            var s2 := OnHit(s1, 2000.0);
            var s3 := OnHit(s2, 2500.0);
            && s1.lives == 2
            && s2.lives == 1 && s2.invincibleUntil == 3000.0
            && s3 == s2 && s3.running
  {
  }
}

=== FILE: spawner.dfy ===
/** One wave of the spawner: how many obstacles it requests, the kind of each
    request, and the rare life item, all at the time `t` the wave was armed. */
module Spawner {
  import opened Random
  import opened Difficulty
  import opened Kinds
  import opened Obstacles

  /** What a wave leaves behind: the obstacle and item collections. */
  datatype Batch = Batch(obstacles: seq<Obstacle>, items: seq<Item>)

  /** The number of obstacle requests in a wave: a uniform integer between 1
      and the wave-size bound for `t`. */
  function WaveSize(t: real, src: Source): (r: Drawn<int>)
    ensures r.src == src.(next := src.next + 1)
    ensures t >= 0.0 && 1.0 - 1.0 / WaveMax(t) as real <= src.draw(src.next) < 1.0 ==> r.value == WaveMax(t)
    ensures t >= 0.0 && 0.0 <= src.draw(src.next) < 1.0 / WaveMax(t) as real ==> r.value == 1
    ensures Uniform(src) ==> Uniform(r.src)
    ensures Uniform(src) && t >= 0.0 ==> 1 <= r.value <= WaveMax(t) <= 3
  {
    Between(src, 1.0, WaveMax(t) as real)
  }

  /** `count` obstacle requests in a row, each kind chosen by one draw. */
  function SpawnMany(obs: seq<Obstacle>, count: nat, t: real, vy: real, now: real, field: Field, src: Source)
    : (r: Drawn<seq<Obstacle>>)
    decreases count
    ensures |obs| + count <= |r.value| <= |obs| + 2 * count
    ensures r.value[..|obs|] == obs
    ensures r.src.draw == src.draw && src.next + 2 * count <= r.src.next
    ensures TaggedFrom(r.value, |obs|)
    ensures Uniform(src) ==> Uniform(r.src)
    ensures Uniform(src) && Roomy(field) && vy > 0.0 ==> HeadingFrom(r.value, |obs|, field)
    ensures Uniform(src) && vy > 0.0 ==> SpeedsFrom(r.value, |obs|, vy)
    ensures (forall u :: PickKind(t, u) != Banana) ==> KindsFrom(r.value, |obs|, {Drop, Diag, Sine, Ghost})
  {
    if count == 0 then
      Drawn(obs, src)
    else
      var u := Next(src);
      var kind := PickKind(t, u.value);
      var one := SpawnObstacle(obs, kind, vy, now, field, u.src);
      var rest := SpawnMany(one.value, count - 1, t, vy, now, field, one.src);
      AppendTwice(obs, one.value, rest.value, field);
      assert (forall u :: PickKind(t, u) != Banana) ==> KindsFrom(rest.value, |obs|, {Drop, Diag, Sine, Ghost}) by {
        if forall u :: PickKind(t, u) != Banana {
          assert {kind, Sine} <= {Drop, Diag, Sine, Ghost};
          KindsAppendTwice(obs, one.value, rest.value, {Drop, Diag, Sine, Ghost});
        }
      }
      rest
  }

  /** Until 5 s no request is for a banana, so no banana appears in a wave
      armed that early (a ghost request still brings a swaying obstacle). */
  lemma EarlyWaveHasNoBanana(obs: seq<Obstacle>, count: nat, t: real, vy: real, now: real, field: Field, src: Source)
    requires t <= 5.0
    ensures KindsFrom(SpawnMany(obs, count, t, vy, now, field, src).value, |obs|, {Drop, Diag, Sine, Ghost})
  {
    forall u
      ensures PickKind(t, u) != Banana
    {
      EarlyKinds(t, u);
    }
  }

  /** When the first request of a wave is for a ghost, the wave contains a
      swaying obstacle: the ghost request falls through the swaying block.
      Together with `EarlyKinds` this releases swaying obstacles before 15 s,
      when no request is for one. */
  lemma {:induction false} GhostWaveSways(obs: seq<Obstacle>, count: nat, t: real, vy: real, now: real,
                                         field: Field, src: Source)
    requires count >= 1 && PickKind(t, src.draw(src.next)) == Ghost
    ensures exists i :: |obs| <= i < |SpawnMany(obs, count, t, vy, now, field, src).value|
                        && SpawnMany(obs, count, t, vy, now, field, src).value[i].kind == Sine
  {
    var u := Next(src);
    var one := SpawnObstacle(obs, Ghost, vy, now, field, u.src);
    var all := SpawnMany(obs, count, t, vy, now, field, src).value;
    assert all[..|one.value|] == one.value;
    assert all[|obs|] == one.value[|obs|];
  }

  /** The obstacle part of a wave armed at time `t`: the wave size is drawn,
      then that many requests are made at `FallSpeed(t)`. */
  function Requests(obs: seq<Obstacle>, t: real, now: real, field: Field, src: Source): (r: Drawn<seq<Obstacle>>)
    ensures |obs| <= |r.value| && r.value[..|obs|] == obs
    ensures r.src.draw == src.draw && src.next < r.src.next
    ensures TaggedFrom(r.value, |obs|)
    ensures Uniform(src) ==> Uniform(r.src)
    ensures Uniform(src) && t >= 0.0 ==>
              |obs| + 1 <= |r.value| <= |obs| + 2 * WaveMax(t) <= |obs| + 6
    ensures Uniform(src) && t >= 0.0 && Roomy(field) ==> HeadingFrom(r.value, |obs|, field)
    ensures Uniform(src) && t >= 0.0 ==> SpeedsFrom(r.value, |obs|, FallSpeed(t))
  {
    var n := WaveSize(t, src);
    SpawnMany(obs, if n.value < 0 then 0 else n.value, t, FallSpeed(t), now, field, n.src)
  }

  /** One wave armed at time `t`: its obstacle requests, then one more draw
      (the first after the requests) which adds a life item falling at 80% of
      the wave speed exactly when it is below `RareItemProb`. */
  function SpawnWave(obs: seq<Obstacle>, items: seq<Item>, t: real, now: real, field: Field, src: Source)
    : (r: Drawn<Batch>)
    ensures r.value.obstacles == Requests(obs, t, now, field, src).value
    ensures |obs| <= |r.value.obstacles| && r.value.obstacles[..|obs|] == obs
    ensures TaggedFrom(r.value.obstacles, |obs|)
    ensures Uniform(src) && t >= 0.0 ==>
              |obs| + 1 <= |r.value.obstacles| <= |obs| + 2 * WaveMax(t) <= |obs| + 6
    ensures Uniform(src) && t >= 0.0 && Roomy(field) ==>
              HeadingFrom(r.value.obstacles, |obs|, field)
    ensures var k := Requests(obs, t, now, field, src).src.next;
            && src.next < k
            && (r.value.items == items <==> src.draw(k) >= RareItemProb)
            && (r.value.items != items <==> src.draw(k) < RareItemProb)
    ensures (forall i :: src.draw(i) >= RareItemProb) ==> r.value.items == items
    ensures (forall i :: src.draw(i) < RareItemProb) ==> |r.value.items| == |items| + 1
    ensures |items| <= |r.value.items| <= |items| + 1 && r.value.items[..|items|] == items
    ensures |r.value.items| == |items| + 1 ==> r.value.items[|items|].vy == FallSpeed(t) * 0.8
    ensures r.src.draw == src.draw
    ensures Uniform(src) ==> Uniform(r.src)
  {
    var many := Requests(obs, t, now, field, src);
    var rare := Next(many.src);
    if rare.value < RareItemProb then
      var life := SpawnLife(items, FallSpeed(t) * 0.8, field, rare.src);
      Drawn(Batch(many.value, life.value), life.src)
    else
      Drawn(Batch(many.value, items), rare.src)
  }
}
